=== FILE: README.md ===
# HashFinder in Dafny

A model of the core of md5-hashfinder, a brute-force collision finder. A
`HashFinder` is configured from the command line: the target digest, MD5 or
SHA-1, an alphabet, a word-length range, and an optional dictionary file.
`process(t, k)` is then run by `k` threads. Thread `t` hashes its share of the
candidates in order and stores the first word whose digest equals the target
in `_collision`.

The candidates come either from the dictionary, when it has at least one
entry, or from every word over the alphabet of each length from
`_minLength` to `_maxLength`. Word `i` of length `L` is the base-`n`
numeral of `i`, written least significant digit first in the alphabet's
characters.

Every `string` stands for a C byte string, one `char` per byte (0 to 255).
The C strings held in the fields (alphabet, target hash, file name) contain
no NUL. Lengths such as `n = |alphabet|` therefore count bytes, as `strlen`
does.

The model is split by concern:

- `options.dfy` (`Options`): `Option` and `Result`.
- `arith.dfy` (`Arith`): `Pow` and the facts about division and remainder
  that the codec and the partition need.
- `config.dfy` (`Config`): the fields of `HashFinder`, `reset`, and
  `parseCommandLineArguments` as a pure function from parsed options and
  operands to a `Result`. Each `exit(1)` is a `ParseError`. A separate
  field-by-field reference definition (`Expected`) is proved equal to the
  option loop.
- `dictionary.dfy` (`Dictionary`): `readDictionary` over the file's contents,
  with getline's splitting into lines and its inverse.
- `partition.dfy` (`Partition`): the `start`/`stop` formulas that split `n`
  candidates among `k` threads, including the last thread's `+ n mod k`.
- `combination.dfy` (`Combination`): the numeral codec, its inverse, and
  the source's own division loop. That loop leaves the top digit unreduced,
  so from index `n^L` on it reads the alphabet's terminating NUL, and further
  on it reads past the string.
- `search.dfy` (`Search`): `process(t, k)` as one sequential call, with the
  digest function as a parameter. `Visits` states the exact visit order:
  - the dictionary loop runs while `i < stop - 1`, in 64-bit unsigned
    arithmetic;
  - the combination loop includes `stop`.

  An `Outcome` says whether the call found a word, left `_collision` as it
  was, or stopped at a candidate it cannot build (`_dictionary.at` past the
  end, or undefined behaviour in the decoding loop).
- `scenarios.dfy` (`Scenarios`): the cases of `HashFinderTest.cpp` replayed
  through `Parse`, `ReadDictionary` and `Process`. Each uses a digest
  function whose only preimage of the target is the expected word.

Four consequences of the visit order are proved:
- When the dictionary has at least `k` entries, the entry at `stop - 1` of
  each thread's dictionary share is hashed by no thread. With one thread,
  the last dictionary word is never tried.
- The entry one past the end of the dictionary is in the last thread's visit
  order when `n mod k >= 2`. It is also in the visit order of a thread whose
  `stop` is 0, because `stop - 1` wraps around. Such a thread reads past the
  end unless it stops earlier at a match.
- The combination at the common boundary of two adjacent threads is in the
  visit order of both; each hashes it unless it stops earlier at a match or
  at a candidate it cannot build.
- For a non-empty alphabet, the index `n^L` lies in the last thread's visit
  order for every searched length `L`. The candidate there has top digit `n`,
  so it ends in NUL. The call may stop before reaching it, at a match or at a
  candidate it cannot build.

## Model

| member | source | states |
|---|---|---|
| Config.Reset | HashFinder.cpp:27-36 | The defaults documented in HashFinder.h are MD5, lengths 8 to 8, and an alphabet of 36 distinct characters: exactly the lower-case letters and the decimal digits. Reset also leaves no hash, no input file, no collision and an empty dictionary. |
| Config.Apply | HashFinder.cpp:62-102 | One option fails exactly when it is `-a` or `-z` with a value of at most 0 before any `-i`, and the error names which one. It never changes the hash, the dictionary or the collision. After an `-i`, every option except `-i` and `-h` leaves the state as it is. SHA-1 is selected afterwards exactly when it was already selected or the option is `-h sha1`/`-h sha-1`. |
| Config.ApplyAll | HashFinder.cpp:58-104 | The option loop never changes the hash, the dictionary or `_collision`. It keeps both lengths at least 1 when they start so. It fails only with a length error. |
| Config.Parse | HashFinder.cpp:47-123 | Parsing fails unless there is exactly one operand, and `Usage` is raised only then. Success means: the hash is that operand, its length is the digest length of the selected algorithm, `1 <= minLength <= maxLength`, the dictionary is empty and there is no collision. Which error each failing command line gives is stated by `Config.ParseCharacterisation`. |
| Config.ApplyAllSnoc | HashFinder.cpp:58-104 | The options are processed left to right. The loop over `flags + [x]` is the loop over `flags` followed by `x`, and an error stops it. |
| Config.LastInputFileIff | HashFinder.cpp:62-64 | The input file is set exactly when some option is `-i`. |
| Config.StepMatchesExpected | HashFinder.cpp:62-102 | One option applied to the reference state of a prefix succeeds exactly when the reference rejects no honoured length. The result is then the reference state of the longer prefix. |
| Config.ApplyAllFromReset | HashFinder.cpp:27-36 | From the `reset` defaults, the option loop succeeds iff no `-a`/`-z` before and including the first `-i` is at most 0. It then yields `Expected`: SHA-1 iff some `-h` names it; the last `-i`; the last `-a`, `-z`, `-c` before and including the first `-i`; defaults otherwise. |
| Config.ParseCharacterisation | HashFinder.cpp:105-122 | Parsing succeeds iff no honoured length is rejected, there is exactly one operand, and its length is 32 for MD5 or 40 for SHA-1. The result is `Expected` with the hash set and `minLength` lowered to `maxLength` when larger. Each failure gets its error in the source's order: a rejected length is a length error; otherwise a missing or extra operand is `Usage`; otherwise a hash of the wrong length is `HashLength` with the digest length of the selected algorithm. |
| Dictionary.SplitLines | HashFinder.cpp:137-142 | The getline loop gives one more entry than there are newlines, and no entry contains a newline. |
| Dictionary.JoinSplit | HashFinder.cpp:137-142 | Joining the entries with newlines gives back the file's contents, so reading loses nothing. |
| Dictionary.SplitJoin | HashFinder.cpp:137-142 | Lines without newlines, written one per line, are read back as exactly those lines. |
| Dictionary.ReadDictionary | HashFinder.cpp:126-148 | Without an input file nothing changes and the result is true. An unopenable file empties the dictionary and gives false. Otherwise the dictionary, and nothing else, becomes the file's lines: at least one, newline-free, and joining back to the contents. |
| Partition.ShareOf | HashFinder.cpp:209-215 | A share starts at or before it stops. Thread 1 starts at 0. Threads before the last stop at or before `n`. The last thread stops at `n + n mod k`. |
| Partition.SharesAdjacent | HashFinder.cpp:261-263 | Each thread starts exactly where the previous one stops. |
| Partition.SharesOrdered | HashFinder.cpp:261-263 | A later thread never starts before an earlier one stops. |
| Partition.LastStopExact | HashFinder.cpp:263-267 | The last thread stops at `n` iff `k` divides `n`, and never below `n`. |
| Partition.OwnerUpTo | HashFinder.cpp:258-267 | Every index below a thread's stop lies in the half-open share of that thread or an earlier one. |
| Partition.CoveredBelow | HashFinder.cpp:258-267 | An index lies in some thread's half-open share iff it is below `n + n mod k`. |
| Partition.SharesPartition | HashFinder.cpp:258-267 | The half-open shares are pairwise disjoint and together cover exactly `[0, n + n mod k)`. |
| Combination.Decode | HashFinder.cpp:280-285 | The numeral of `i` has the requested length and uses only alphabet characters. |
| Combination.Encode | HashFinder.cpp:280-285 | Every word of length `L` over the alphabet has a number below `n^L`. |
| Combination.DecodeDigit | HashFinder.cpp:281-284 | Position `i` of the numeral of `k` holds the character for digit `(k / n^i) mod n`. |
| Combination.EncodeDecode | HashFinder.cpp:280-285 | With distinct characters, every index below `n^L` is recovered from its word. |
| Combination.DecodeEncode | HashFinder.cpp:280-285 | Every word over the alphabet is the numeral of its number. |
| Combination.DecodeBijective | HashFinder.cpp:258-285 | With distinct characters, decoding is a bijection from `[0, n^L)` onto the words of length `L` over the alphabet. |
| Combination.Candidate | HashFinder.cpp:280-285 | The loop's output is undefined exactly when `k >= (n + 1) * n^(L-1)`. That bound covers both the read more than one past the alphabet's end and, for an empty alphabet with `L >= 2`, the division by `pow(0, L-1)`. Otherwise the word has length `L`, every character but the last is from the alphabet, and the last is from the alphabet or the NUL terminator. |
| Combination.CandidateInRange | HashFinder.cpp:280-285 | Below `n^L` the source's loop builds exactly the numeral of the index. |
| Combination.CandidatePastRange | HashFinder.cpp:278-285 | From `n^L` up to `n^L + n^(L-1) - 1` the loop builds a word ending in the terminating NUL. It is not a word over an alphabet without NUL. |
| Combination.DecodeCandidate | HashFinder.cpp:280-285 | The division loop, from the most significant position down with the remainder carried, computes the closed-form `Candidate`. That includes its undefined cases: a division by `pow(0, L-1) == 0`, and a top digit above `n`. |
| Search.DictionaryBound | HashFinder.cpp:225-226 | The dictionary loop's bound `stop - 1` is computed modulo 2^64, as uint64 arithmetic does, and lies below `stop` whenever `stop >= 1`. |
| Search.Visits | HashFinder.cpp:225-278 | In the visit order, a visit is a dictionary entry exactly when the dictionary is non-empty. Generated words have a searched length and an index of at most `n^L + n^L mod k`. Entries lie below `n + n mod k - 1` unless the thread's `stop` is 0 and wraps around. |
| Search.ScanDictionary | HashFinder.cpp:225-245 | The dictionary loop stops at the first matching entry, or at the first index past the end (which throws), or covers every index below its bound. It does nothing once `_collision` is set. |
| Search.ScanLength | HashFinder.cpp:277-303 | For one length, the loop over `start..stop` inclusive stops at the first matching or unbuildable candidate, or clears every index. |
| Search.ScanCombinations | HashFinder.cpp:251-306 | The lengths are taken in increasing order. The call stops at the first visit, in visit order, that matches or cannot be built; otherwise every visit is clear. |
| Search.ShareStartsWithin | HashFinder.cpp:209-215 | No thread's share starts past `n`. |
| Search.SearchDictionary | HashFinder.cpp:205-247 | The dictionary attack stops at the first visited entry that matches or lies past the end; otherwise every visited entry is clear. |
| Search.Process | HashFinder.cpp:190-307 | An existing collision is never overwritten. Otherwise the call finds the first match in visit order, or stops at the first unbuildable candidate, or clears every candidate of the thread's share. |
| Search.StopPositive | HashFinder.cpp:209-211 | With at least as many entries as threads, every stop is at least 1. |
| Search.StopZeroIff | HashFinder.cpp:211 | A thread before the last has stop 0 exactly when `t * n < k`. |
| Search.DictionaryOverrun | HashFinder.cpp:209-231 | The entry one past the dictionary's end is in a thread's visit order iff it is the last thread with `n mod k >= 2`, or an earlier thread with `t * n < k`, whose `stop - 1` wraps. That entry has no candidate, so a thread that reaches it crashes. |
| Search.DictionarySkipsShareEnd | HashFinder.cpp:211-226 | With at least as many entries as threads, the entry at `stop - 1` of any thread's share is visited by no thread. |
| Search.SingleThreadDictionary | HashFinder.cpp:209-226 | A single thread visits exactly the entries below `n - 1`. |
| Search.BoundaryVisitedTwice | HashFinder.cpp:261-278 | For each searched length, the index where thread `t` stops is visited by both `t` and `t + 1`. |
| Search.CombinationCoverage | HashFinder.cpp:251-278 | Every index below `n^L`, for every searched length, is visited by some thread. |
| Search.LastThreadVisitsTerminator | HashFinder.cpp:258-285 | Index `n^L` is in the last thread's visit order, and the candidate there ends in NUL. |
| Search.CombinationComplete | HashFinder.cpp:251-303 | A matching word of a searched length is visited by some thread, and its visit is not one whose candidate misses the target. |
| Search.MatchEndsSearch | HashFinder.cpp:251-303 | A thread that visits a matching word and starts with `_collision` unset never returns leaving it unchanged. It ends with a match, and `_collision` then holds a matching word, or at a candidate it cannot build. |
| Scenarios.ParseExamples | HashFinderTest.cpp:17-73 | No operand is a usage error. `-i` keeps the default alphabet. `-h sha1` selects SHA-1. `-c` sets the alphabet when no `-i` precedes it. |
| Scenarios.ParseCombinationTest | HashFinderTest.cpp:124-138 | The combination test's command line yields MD5 or SHA-1, alphabet "fhlvz79", lengths 4..4, and no input file. |
| Scenarios.ParseDictionaryTest | HashFinderTest.cpp:148-159 | The dictionary test's command line sets the input file and the algorithm and keeps the defaults. |
| Scenarios.ReadExampleDictionary | HashFinderTest.cpp:80-102 | Reading the three-line example file succeeds and yields exactly its three words. |
| Scenarios.CandidatesUpTo2401 | HashFinderTest.cpp:122-144 | Over "fhlvz79" with length 4, every candidate up to index 2401 exists, and only index 1835 spells "hvl7". |
| Scenarios.CombinationTest | HashFinderTest.cpp:122-144 | `process(1, 1)` finds "hvl7" at index 1835 of the length-4 words, and `_collision` then holds "hvl7". |
| Scenarios.DictionaryTest | HashFinderTest.cpp:146-168 | After loading the example file, `process(1, 1)` finds "Radschaufel" as entry 1, and `_collision` then holds "Radschaufel". |
| Scenarios.LastWordTest | HashFinder.cpp:225-226 | For a target whose only preimage is the last word of the example file, `process(1, 1)` leaves `_collision` unset. |

## Left out

- Threads and the shared `_collision` field. Each call of `process` is modelled on its own, sequentially, against the `_collision` it starts with. Interleavings and the data race on `_collision` are not modelled.
- The digest computations: MD5 and SHA-1 are the parameter `hash`, and only its equality with the target matters. `algorithms/MD5.h` and `algorithms/SHA1.h` are not part of this model.
- The counters (`nCombinationsTried`), the timing, and every `printf`/`fprintf` message, including `printConfiguration` and `printUsageAndExit`.
- getopt and `atoi`: options arrive already parsed as `Flag` values. An unrecognised option is skipped. `atoi` of a non-number is the integer the caller passes.
- `exit(1)` is a `ParseError`, and `std::out_of_range` or undefined behaviour in `process` is `Crashed`; neither terminates anything here.
- `possibleThreadCount` and `main` (HashFinderMain.cpp): `k` is any positive thread count, `t` any thread number from 1 to `k`.
- Characters outside 0 to 255: a `char` beyond one byte has no counterpart in the source, and the model does not rule it out.
- C-string hazards: the too-small `strToTest` buffer of `-h`, the candidate passed to `snprintf` as its format string, and the unterminated `combination` array. A stored collision is modelled as the candidate word itself.
- Memory management (`new`/`delete`, the destructor). This includes the leak in `reset`, which sets `_collision` to NULL without freeing a collision found earlier on the same object.
- Partition.ShareOf: `start` and `stop` are computed in unbounded integers. The source multiplies in 64-bit unsigned arithmetic, which wraps when `t * n` exceeds 2^64 - 1.
- Combination.Candidate: `pow` and `div` go through `double` and `int` in the source. They are modelled as exact integer power, quotient and remainder, which agree with the source only while `n^L` fits those types.
- Search.Process: requires `minLength >= 1` and a target hash. `parseCommandLineArguments` guarantees both before `main` calls `process`. A zero or negative length, reachable only by writing the fields directly, is not modelled.
- Search.DictionaryBound: the `stop - 1` wrap-around is modelled, but indices are unbounded integers. The loop counter's own overflow past 2^64 - 1 cannot arise, because the loop reads past the dictionary's end long before that.

=== FILE: arith.dfy ===
/** Natural-number facts about powers, division and remainder used by the codec and the partition. */
module Arith {

  /** b raised to the power e; pow(0, 0) is 1, as in C. */
  function Pow(b: nat, e: nat): (r: nat)
    ensures b > 0 || e == 0 ==> r > 0
  {
    if e == 0 then 1 else b * Pow(b, e - 1)
  }

  lemma MulCancel(a: nat, b: nat, c: nat)
    requires a * c < b * c
    ensures a < b
  {
  }

  lemma MulMonotone(a: nat, b: nat, c: nat)
    requires a <= b
    ensures a * c <= b * c
  {
  }

  /** Quotient and remainder are determined by any decomposition x = q * d + r with 0 <= r < d. */
  lemma DivModUnique(x: nat, d: nat, q: nat, r: nat)
    requires d > 0 && r < d && x == q * d + r
    ensures x / d == q && x % d == r
  {
    var q', r' := x / d, x % d;
    assert x == q' * d + r';
    assert q * d < (q' + 1) * d;
    MulCancel(q, q' + 1, d);
    assert q' * d < (q + 1) * d;
    MulCancel(q', q + 1, d);
  }

  /** Division by a positive divisor is monotonic in the dividend. */
  lemma DivMonotone(a: nat, b: nat, d: nat)
    requires d > 0 && a <= b
    ensures a / d <= b / d
  {
    assert (a / d) * d <= a;
    assert b < (b / d + 1) * d;
    MulCancel(a / d, b / d + 1, d);
  }

  /** x < d * m implies x / d < m. */
  lemma DivBelow(x: nat, d: nat, m: nat)
    requires d > 0 && x < d * m
    ensures x / d < m
  {
    assert (x / d) * d <= x;
    MulCancel(x / d, m, d);
  }

  /** Dividing twice is dividing by the product. */
  lemma DivDiv(x: nat, a: nat, b: nat)
    requires a > 0 && b > 0
    ensures (x / a) / b == x / (a * b)
  {
    var q1, r1 := x / a, x % a;
    var q2, r2 := q1 / b, q1 % b;
    assert x == q1 * a + r1;
    assert q1 == q2 * b + r2;
    NestedDigits(x, a, b, q1, r1, q2, r2);
    DivModUnique(x, a * b, q2, r2 * a + r1);
  }

  /** x = (q2 * b + r2) * a + r1 with both remainders in range is x = q2 * (a * b) + r with r < a * b. */
  lemma NestedDigits(x: nat, a: nat, b: nat, q1: nat, r1: nat, q2: nat, r2: nat)
    requires r1 < a && r2 < b
    requires x == q1 * a + r1 && q1 == q2 * b + r2
    ensures x == q2 * (a * b) + (r2 * a + r1)
    ensures r2 * a + r1 < a * b
  {
    assert (q2 * b + r2) * a == q2 * (a * b) + r2 * a;
    MulMonotone(r2, b - 1, a);
    assert (b - 1) * a == a * b - a;
  }

  /** Reducing modulo p * n and then dividing by p yields the digit (x / p) % n and the remainder x % p. */
  lemma ModSplit(x: nat, p: nat, n: nat)
    requires p > 0 && n > 0
    ensures (x % (p * n)) / p == (x / p) % n
    ensures (x % (p * n)) % p == x % p
  {
    ModSplitFrom(x, p, n, x / (p * n), x % (p * n));
  }

  /** ModSplit for a given decomposition x = Q * (p * n) + R with R < p * n. */
  lemma ModSplitFrom(x: nat, p: nat, n: nat, Q: nat, R: nat)
    requires p > 0 && n > 0 && R < p * n && x == Q * (p * n) + R
    ensures R / p == (x / p) % n && R % p == x % p
  {
    var R1, R0 := R / p, R % p;
    assert R1 < n by {
      DivBelow(R, p, n);
    }
    Regroup(x, p, n, Q, R, R1, R0);
    DivModUnique(x, p, Q * n + R1, R0);
    DivModUnique(x / p, n, Q, R1);
  }

  lemma Regroup(x: nat, p: nat, n: nat, Q: nat, R: nat, R1: nat, R0: nat)
    requires x == Q * (p * n) + R && R == R1 * p + R0
    ensures x == (Q * n + R1) * p + R0
  {
    assert Q * (p * n) == (Q * n) * p;
    assert (Q * n + R1) * p == (Q * n) * p + R1 * p;
  }

  /** A digit below n followed by a number below P is a number below n * P. */
  lemma DigitPrefix(d: nat, rest: nat, n: nat, P: nat)
    requires d < n && rest < P
    ensures d + n * rest < n * P
  {
    MulMonotone(rest, P - 1, n);
    assert (P - 1) * n == n * P - n;
  }

  /** The Euclidean decomposition of x by a positive divisor n. */
  lemma DivModDecompose(x: nat, n: nat)
    requires n > 0
    ensures x == x % n + n * (x / n)
  {
  }
}

=== FILE: combination.dfy ===
/**
  The combination space of HashFinder::process: the candidate with index k and
  length L is the base-n numeral of k written with the characters of the
  alphabet, least significant digit at position 0.
*/
module Combination {
  import opened Options
  import opened Arith

  /** The NUL byte that ends the C string holding the alphabet. */
  const Terminator: char := '\0'

  /** Every character of the alphabet occurs only once. */
  predicate Distinct(alphabet: string) {
    forall i, j :: 0 <= i < j < |alphabet| ==> alphabet[i] != alphabet[j]
  }

  /** w is written with characters of the alphabet only. */
  predicate Over(alphabet: string, w: string) {
    forall i :: 0 <= i < |w| ==> w[i] in alphabet
  }

  /** The length-`len` numeral of k (taken modulo n^len), least significant digit first. */
  function Decode(alphabet: string, len: nat, k: nat): (w: string)
    requires |alphabet| > 0
    ensures |w| == len
    ensures Over(alphabet, w)
  {
    if len == 0 then []
    else [alphabet[k % |alphabet|]] + Decode(alphabet, len - 1, k / |alphabet|)
  }

  /** The position of the first occurrence of c in the alphabet. */
  function IndexOf(alphabet: string, c: char): (i: nat)
    requires c in alphabet
    ensures i < |alphabet| && alphabet[i] == c
    ensures forall j :: 0 <= j < i ==> alphabet[j] != c
  {
    if alphabet[0] == c then 0 else 1 + IndexOf(alphabet[1..], c)
  }

  /** The number whose numeral is w: the inverse of Decode. */
  function Encode(alphabet: string, w: string): (k: nat)
    requires Over(alphabet, w)
    ensures k < Pow(|alphabet|, |w|)
  {
    if w == [] then 0
    else
      var n := |alphabet|;
      var d := IndexOf(alphabet, w[0]);
      var rest := Encode(alphabet, w[1..]);
      DigitPrefix(d, rest, n, Pow(n, |w| - 1));
      d + n * rest
  }

  /** Position i of the numeral of k holds digit (k / n^i) mod n. */
  lemma {:induction false} DecodeDigit(alphabet: string, len: nat, k: nat, i: nat)
    requires |alphabet| > 0 && i < len
    ensures Decode(alphabet, len, k)[i] == alphabet[(k / Pow(|alphabet|, i)) % |alphabet|]
    decreases i
  {
    var n := |alphabet|;
    var w := Decode(alphabet, len, k);
    if i == 0 {
      assert w[0] == alphabet[k % n];
      assert k / Pow(n, 0) == k;
    } else {
      var rest := Decode(alphabet, len - 1, k / n);
      assert w == [alphabet[k % n]] + rest;
      assert w[i] == rest[i - 1];
      DecodeDigit(alphabet, len - 1, k / n, i - 1);
      assert Pow(n, i) == n * Pow(n, i - 1);
      DivDiv(k, n, Pow(n, i - 1));
    }
  }

  /** Encoding the decoded numeral of an index below n^len gives the index back. */
  lemma {:induction false} EncodeDecode(alphabet: string, len: nat, k: nat)
    requires |alphabet| > 0 && Distinct(alphabet)
    requires k < Pow(|alphabet|, len)
    ensures Encode(alphabet, Decode(alphabet, len, k)) == k
    decreases len
  {
    if len > 0 {
      var n := |alphabet|;
      var q, d := k / n, k % n;
      assert q < Pow(n, len - 1) by {
        DivBelow(k, n, Pow(n, len - 1));
      }
      EncodeDecode(alphabet, len - 1, q);
      assert k == d + n * q by {
        DivModDecompose(k, n);
      }
      EncodeDigits(alphabet, d, Decode(alphabet, len - 1, q), q, k);
    }
  }

  /** A digit d followed by a numeral of q is a numeral of d + n * q. */
  lemma EncodeDigits(alphabet: string, d: nat, rest: string, q: nat, k: nat)
    requires d < |alphabet| && Distinct(alphabet) && Over(alphabet, rest)
    requires Encode(alphabet, rest) == q && k == d + |alphabet| * q
    ensures Over(alphabet, [alphabet[d]] + rest)
    ensures Encode(alphabet, [alphabet[d]] + rest) == k
  {
    var u := [alphabet[d]] + rest;
    assert u[0] == alphabet[d] && u[1..] == rest;
    assert IndexOf(alphabet, alphabet[d]) == d;
  }

  /** Decoding the number of a word over the alphabet gives the word back. */
  lemma {:induction false} DecodeEncode(alphabet: string, w: string)
    requires |alphabet| > 0 && Over(alphabet, w)
    ensures Decode(alphabet, |w|, Encode(alphabet, w)) == w
    decreases |w|
  {
    if w != [] {
      var n := |alphabet|;
      var d := IndexOf(alphabet, w[0]);
      var rest := Encode(alphabet, w[1..]);
      var e := Encode(alphabet, w);
      assert e % n == d && e / n == rest by {
        assert e == rest * n + d;
        DivModUnique(e, n, rest, d);
      }
      assert Decode(alphabet, |w|, e) == [alphabet[d]] + Decode(alphabet, |w| - 1, rest);
      DecodeEncode(alphabet, w[1..]);
      assert w == [w[0]] + w[1..];
    }
  }

  /**
    Over an alphabet of distinct characters, Decode is a bijection between the
    indices below n^len and the words of length len over the alphabet.
  */
  lemma DecodeBijective(alphabet: string, len: nat)
    requires |alphabet| > 0 && Distinct(alphabet)
    ensures forall k1: nat, k2: nat ::
      (k1 < Pow(|alphabet|, len) && k2 < Pow(|alphabet|, len) &&
       Decode(alphabet, len, k1) == Decode(alphabet, len, k2)) ==> k1 == k2
    ensures forall w :: |w| == len && Over(alphabet, w) ==>
      Encode(alphabet, w) < Pow(|alphabet|, len) && Decode(alphabet, len, Encode(alphabet, w)) == w
  {
    forall k1: nat, k2: nat |
      k1 < Pow(|alphabet|, len) && k2 < Pow(|alphabet|, len) &&
      Decode(alphabet, len, k1) == Decode(alphabet, len, k2)
      ensures k1 == k2
    {
      EncodeDecode(alphabet, len, k1);
      EncodeDecode(alphabet, len, k2);
    }
    forall w | |w| == len && Over(alphabet, w)
      ensures Decode(alphabet, len, Encode(alphabet, w)) == w
    {
      DecodeEncode(alphabet, w);
    }
  }

  /**
    The digit the source's division loop writes at position i. Every digit
    but the most significant one is reduced modulo n; the most significant
    one is k / n^(len-1) and exceeds n - 1 once k reaches n^len.
  */
  function Digit(k: nat, n: nat, len: nat, i: nat): nat
    requires i < len
    requires n > 0 || len == 1
  {
    if i == len - 1 then k / Pow(n, i) else (k / Pow(n, i)) % n
  }

  /** The character the source reads at alphabet[d]: d == n reads the string's terminator. */
  function Glyph(alphabet: string, d: nat): char {
    if d < |alphabet| then alphabet[d] else Terminator
  }

  /**
    The candidate the source builds for index k and length len, or None where
    building it has undefined behaviour: a division by pow(0, len - 1) == 0,
    or a read more than one character past the end of the alphabet.
  */
  function Candidate(alphabet: string, len: nat, k: nat): (c: Option<string>)
    requires len >= 1
    ensures c.None? <==> k >= (|alphabet| + 1) * Pow(|alphabet|, len - 1)
    ensures c.Some? ==> |c.value| == len
    ensures c.Some? ==> forall i :: 0 <= i < len - 1 ==> c.value[i] in alphabet
    ensures c.Some? ==> c.value[len - 1] in alphabet || c.value[len - 1] == Terminator
  {
    var n := |alphabet|;
    if n == 0 && len >= 2 then
      assert Pow(n, len - 1) == 0;
      None
    else
      TopDigitAtMost(k, Pow(n, len - 1), n);
      if Digit(k, n, len, len - 1) > n then None
      else Some(seq(len, i requires 0 <= i < len => Glyph(alphabet, Digit(k, n, len, i))))
  }

  /** The most significant digit k / P is at most n exactly when k < (n + 1) * P. */
  lemma TopDigitAtMost(k: nat, P: nat, n: nat)
    requires P > 0
    ensures k / P <= n <==> k < (n + 1) * P
  {
    if k / P <= n {
      assert k < (k / P + 1) * P;
      MulMonotone(k / P + 1, n + 1, P);
    }
    if k < (n + 1) * P {
      DivBelow(k, P, n + 1);
    }
  }

  /** Below n^len the most significant digit is a digit of the alphabet. */
  lemma TopDigitBelow(n: nat, len: nat, k: nat)
    requires len >= 1 && n > 0 && k < Pow(n, len)
    ensures k / Pow(n, len - 1) < n
  {
    assert Pow(n, len) == n * Pow(n, len - 1);
    DivBelow(k, Pow(n, len - 1), n);
  }

  /** Below n^len every digit the source's loop writes is the digit of the numeral. */
  lemma GlyphInRange(alphabet: string, len: nat, k: nat, i: nat)
    requires len >= 1 && |alphabet| > 0 && i < len
    requires k < Pow(|alphabet|, len)
    ensures Glyph(alphabet, Digit(k, |alphabet|, len, i)) == Decode(alphabet, len, k)[i]
  {
    var n := |alphabet|;
    DecodeDigit(alphabet, len, k, i);
    if i == len - 1 {
      TopDigitBelow(n, len, k);
      var top := k / Pow(n, i);
      assert top < n;
      DivModUnique(top, n, 0, top);
    }
  }

  /** Below n^len the source's candidate is exactly the numeral of k. */
  lemma CandidateInRange(alphabet: string, len: nat, k: nat)
    requires len >= 1 && |alphabet| > 0
    requires k < Pow(|alphabet|, len)
    ensures Candidate(alphabet, len, k) == Some(Decode(alphabet, len, k))
  {
    var n := |alphabet|;
    TopDigitBelow(n, len, k);
    var s := seq(len, i requires 0 <= i < len => Glyph(alphabet, Digit(k, n, len, i)));
    var w := Decode(alphabet, len, k);
    forall i | 0 <= i < len
      ensures s[i] == w[i]
    {
      GlyphInRange(alphabet, len, k, i);
    }
    assert s == w;
  }

  /**
    From n^len up to (n + 1) * n^(len-1) - 1 the most significant digit is n:
    the candidate exists and ends with the terminator, so it is not a word
    over an alphabet that lacks NUL.
  */
  lemma CandidatePastRange(alphabet: string, len: nat, k: nat)
    requires len >= 1 && |alphabet| > 0
    requires Pow(|alphabet|, len) <= k < Pow(|alphabet|, len) + Pow(|alphabet|, len - 1)
    ensures Candidate(alphabet, len, k).Some?
    ensures Candidate(alphabet, len, k).value[len - 1] == Terminator
    ensures Terminator !in alphabet ==> !Over(alphabet, Candidate(alphabet, len, k).value)
  {
    var n := |alphabet|;
    var p := Pow(n, len - 1);
    assert Pow(n, len) == n * p;
    DivModUnique(k, p, n, k - n * p);
  }

  /**
    The source's decoding loop (HashFinder.cpp:280-285): positions from the
    most significant down, each taking the quotient by n^i and keeping the
    remainder for the next position.
  */
  method DecodeCandidate(alphabet: string, len: nat, k: nat) returns (c: Option<string>)
    requires len >= 1
    ensures c == Candidate(alphabet, len, k)
  {
    var n := |alphabet|;
    var combination := seq(len, _ => Terminator);
    var l := k;
    var i := len;
    while i > 0
      invariant 0 <= i <= len && |combination| == len
      invariant i == len ==> l == k
      invariant i < len ==> (n > 0 || len == 1) && !(n == 0 && len >= 2)
      invariant i < len ==> Digit(k, n, len, len - 1) <= n
      invariant 0 < i < len ==> l == k % Pow(n, i)
      invariant i < len ==> forall j :: i <= j < len ==> combination[j] == Glyph(alphabet, Digit(k, n, len, j))
    {
      i := i - 1;
      var p := Pow(n, i);
      if p == 0 {
        // pow(0, i) == 0: the source divides by zero
        return None;
      }
      var q := l / p;
      if i < len - 1 {
        assert Pow(n, i + 1) == p * n;
        ModSplit(k, p, n);
      }
      if q > n {
        // alphabet[q] lies beyond the terminator of the alphabet string
        return None;
      }
      combination := combination[i := Glyph(alphabet, q)];
      l := l % p;
    }
    assert combination == seq(len, j requires 0 <= j < len => Glyph(alphabet, Digit(k, n, len, j)));
    c := Some(combination);
  }
}

=== FILE: config.dfy ===
/**
  The state of a HashFinder (HashFinder.h:63-85), its defaults (reset) and
  the validation rules of parseCommandLineArguments.
*/
module Config {
  import opened Options
  import Combination

  /** Which digest is searched for; the source keeps this as the flag `_md5`. */
  datatype Algorithm = Md5 | Sha1

  /** The number of hex characters of a digest: 32 for MD5, 40 for SHA-1. */
  function DigestLength(a: Algorithm): nat {
    match a
    case Md5 => 32
    case Sha1 => 40
  }

  /** The characters with codes lo, lo + 1, ..., lo + count - 1, in order. */
  function CharRange(lo: nat, count: nat): (s: string)
    requires lo + count <= 0xD800
    ensures |s| == count
    decreases count
  {
    if count == 0 then [] else [lo as char] + CharRange(lo + 1, count - 1)
  }

  /** Position i of CharRange(lo, count) holds the character with code lo + i. */
  lemma {:induction false} CharRangeAt(lo: nat, count: nat, i: nat)
    requires lo + count <= 0xD800 && i < count
    ensures CharRange(lo, count)[i] as int == lo + i
    decreases count
  {
    if i > 0 {
      CharRangeAt(lo + 1, count - 1, i - 1);
    }
  }

  /** The default alphabet "abcdefghijklmnopqrstuvwxyz0123456789". */
  const DefaultCharacters: string := CharRange(97, 26) + CharRange(48, 10)
  const DefaultLength: int := 8

  /** The fields of a HashFinder; a NULL field is None. */
  datatype Finder = Finder(
    hashToFind: Option<string>,
    algorithm: Algorithm,
    allowedCharacters: string,
    minLength: int,
    maxLength: int,
    inputFileName: Option<string>,
    dictionary: seq<string>,
    collision: Option<string>)

  /** The state reset() leaves behind. */
  function Reset(): (r: Finder)
    ensures r.hashToFind.None? && r.inputFileName.None? && r.collision.None? && r.dictionary == []
    ensures r.algorithm == Md5 && r.minLength == 8 && r.maxLength == 8
    ensures |r.allowedCharacters| == 36 && Combination.Distinct(r.allowedCharacters)
    ensures forall c :: c in r.allowedCharacters <==> 'a' <= c <= 'z' || '0' <= c <= '9'
  {
    DefaultAlphabet();
    Finder(None, Md5, DefaultCharacters, DefaultLength, DefaultLength, None, [], None)
  }

  /** The default alphabet holds each lower-case letter and each digit exactly once. */
  lemma DefaultAlphabet()
    ensures |DefaultCharacters| == 36 && Combination.Distinct(DefaultCharacters)
    ensures forall c :: c in DefaultCharacters <==> 'a' <= c <= 'z' || '0' <= c <= '9'
  {
    var s := DefaultCharacters;
    forall i | 0 <= i < 36
      ensures s[i] as int == if i < 26 then 97 + i else 22 + i
    {
      if i < 26 {
        CharRangeAt(97, 26, i);
      } else {
        CharRangeAt(48, 10, i - 26);
      }
    }
    forall c | 'a' <= c <= 'z' || '0' <= c <= '9'
      ensures c in s
    {
      var i := if c <= '9' then c as int - 22 else c as int - 97;
      assert s[i] == c;
    }
  }

  /** One option as getopt_long delivers it, its argument already converted by atoi where numeric. */
  datatype Flag =
    | InputFile(file: string)     // -i, --input-file
    | MinLength(length: int)      // -a, --min-length
    | MaxLength(length: int)      // -z, --max-length
    | Characters(chars: string)   // -c, --characters
    | HashAlgo(name: string)      // -h, --hash-algo
    | Unrecognised                // an option getopt rejects: it is reported and skipped

  /** Why parsing stops the program (exit(1) after a message). */
  datatype ParseError =
    | MinLengthNotPositive
    | MaxLengthNotPositive
    | Usage                       // not exactly one non-option argument
    | HashLength(expected: nat)   // the hash has the wrong length for the algorithm

  /** The only names that select SHA-1. */
  predicate NamesSha1(name: string) {
    name == "sha1" || name == "sha-1"
  }

  /** The effect of one option on the state (HashFinder.cpp:62-102). */
  function Apply(f: Finder, flag: Flag): (r: Result<Finder, ParseError>)
    ensures r.Err? <==> f.inputFileName.None? && (flag.MinLength? || flag.MaxLength?) && flag.length <= 0
    ensures r.Err? ==> r.error == if flag.MinLength? then MinLengthNotPositive else MaxLengthNotPositive
    ensures r.Ok? ==>
      r.value.hashToFind == f.hashToFind && r.value.dictionary == f.dictionary && r.value.collision == f.collision
    ensures f.inputFileName.Some? && !flag.InputFile? && !flag.HashAlgo? ==> r == Ok(f)
    ensures r.Ok? ==>
      (r.value.algorithm == Sha1 <==> f.algorithm == Sha1 || (flag.HashAlgo? && NamesSha1(flag.name)))
  {
    match flag
    case InputFile(file) => Ok(f.(inputFileName := Some(file)))
    case MinLength(len) =>
      if f.inputFileName.Some? then Ok(f)
      else if len <= 0 then Err(MinLengthNotPositive)
      else Ok(f.(minLength := len))
    case MaxLength(len) =>
      if f.inputFileName.Some? then Ok(f)
      else if len <= 0 then Err(MaxLengthNotPositive)
      else Ok(f.(maxLength := len))
    case Characters(chars) =>
      if f.inputFileName.Some? then Ok(f) else Ok(f.(allowedCharacters := chars))
    case HashAlgo(name) =>
      if NamesSha1(name) then Ok(f.(algorithm := Sha1)) else Ok(f)
    case Unrecognised => Ok(f)
  }

  /** The option loop: options in order, stopping at the first fatal one. */
  function ApplyAll(f: Finder, flags: seq<Flag>): (r: Result<Finder, ParseError>)
    ensures r.Ok? ==> r.value.hashToFind == f.hashToFind
    ensures r.Ok? ==> r.value.dictionary == f.dictionary && r.value.collision == f.collision
    ensures r.Ok? && f.minLength >= 1 && f.maxLength >= 1 ==>
      r.value.minLength >= 1 && r.value.maxLength >= 1
    ensures r.Err? ==> r.error == MinLengthNotPositive || r.error == MaxLengthNotPositive
    decreases |flags|
  {
    if flags == [] then Ok(f)
    else
      match Apply(f, flags[0])
      case Err(e) => Err(e)
      case Ok(g) => ApplyAll(g, flags[1..])
  }

  /**
    parseCommandLineArguments: reset, the option loop, exactly one
    non-option argument (the hash), clamp the minimum length to the
    maximum, check the hash length against the algorithm.
  */
  function Parse(flags: seq<Flag>, operands: seq<string>): (r: Result<Finder, ParseError>)
    ensures |operands| != 1 ==> r.Err?
    ensures r.Err? && r.error == Usage ==> |operands| != 1
    ensures r.Ok? ==> |operands| == 1 && r.value.hashToFind == Some(operands[0])
    ensures r.Ok? ==> |operands[0]| == DigestLength(r.value.algorithm)
    ensures r.Ok? ==> 1 <= r.value.minLength <= r.value.maxLength
    ensures r.Ok? ==> r.value.dictionary == [] && r.value.collision == None
  {
    match ApplyAll(Reset(), flags)
    case Err(e) => Err(e)
    case Ok(f) =>
      if |operands| != 1 then Err(Usage)
      else
        var g := f.(hashToFind := Some(operands[0]),
                    minLength := if f.minLength > f.maxLength then f.maxLength else f.minLength);
        if |operands[0]| != DigestLength(g.algorithm) then Err(HashLength(DigestLength(g.algorithm)))
        else Ok(g)
  }

  // ---------------------------------------------------------------------------
  // A reference description of the options' effect, independent of the loop.

  function Last<T>(s: seq<T>): T requires |s| > 0 { s[|s| - 1] }
  function Init<T>(s: seq<T>): seq<T> requires |s| > 0 { s[..|s| - 1] }

  /** Some option is an -i. */
  predicate HasInputFile(flags: seq<Flag>) {
    exists i :: 0 <= i < |flags| && flags[i].InputFile?
  }

  /** The options up to and including the first -i: only these can set -a, -z and -c. */
  function Honoured(flags: seq<Flag>): seq<Flag> {
    if flags == [] || !HasInputFile(Init(flags)) then flags else Honoured(Init(flags))
  }

  /** Some -h names SHA-1; no later option undoes it. */
  predicate SelectsSha1(flags: seq<Flag>) {
    exists i :: 0 <= i < |flags| && flags[i].HashAlgo? && NamesSha1(flags[i].name)
  }

  /** The algorithm the options select: SHA-1 once some -h names it, MD5 otherwise. */
  function SelectedAlgorithm(flags: seq<Flag>): Algorithm {
    if SelectsSha1(flags) then Sha1 else Md5
  }

  /** Some -a or -z carries a length of at most 0. */
  predicate RejectsLength(flags: seq<Flag>) {
    exists i :: 0 <= i < |flags| && (flags[i].MinLength? || flags[i].MaxLength?) && flags[i].length <= 0
  }

  /** The argument of the last -i, if any. */
  function LastInputFile(flags: seq<Flag>): Option<string> {
    if flags == [] then None
    else if Last(flags).InputFile? then Some(Last(flags).file)
    else LastInputFile(Init(flags))
  }

  /** The argument of the last -c, if any. */
  function LastCharacters(flags: seq<Flag>): Option<string> {
    if flags == [] then None
    else if Last(flags).Characters? then Some(Last(flags).chars)
    else LastCharacters(Init(flags))
  }

  /** The argument of the last -a, if any. */
  function LastMinLength(flags: seq<Flag>): Option<int> {
    if flags == [] then None
    else if Last(flags).MinLength? then Some(Last(flags).length)
    else LastMinLength(Init(flags))
  }

  /** The argument of the last -z, if any. */
  function LastMaxLength(flags: seq<Flag>): Option<int> {
    if flags == [] then None
    else if Last(flags).MaxLength? then Some(Last(flags).length)
    else LastMaxLength(Init(flags))
  }

  /** The state the options should produce from the defaults, field by field. */
  function Expected(flags: seq<Flag>): Finder {
    var h := Honoured(flags);
    Reset().(
      algorithm := SelectedAlgorithm(flags),
      allowedCharacters := LastCharacters(h).GetOr(DefaultCharacters),
      minLength := LastMinLength(h).GetOr(DefaultLength),
      maxLength := LastMaxLength(h).GetOr(DefaultLength),
      inputFileName := LastInputFile(flags))
  }

  function Then(r: Result<Finder, ParseError>, flag: Flag): Result<Finder, ParseError> {
    match r
    case Err(e) => Err(e)
    case Ok(g) => Apply(g, flag)
  }

  /** The option loop over flags + [x] is the loop over flags followed by x. */
  lemma {:induction false} ApplyAllSnoc(f: Finder, flags: seq<Flag>, x: Flag)
    ensures ApplyAll(f, flags + [x]) == Then(ApplyAll(f, flags), x)
    decreases |flags|
  {
    if flags == [] {
      assert [x][1..] == [];
    } else {
      assert (flags + [x])[1..] == flags[1..] + [x];
      match Apply(f, flags[0])
      case Err(e) =>
      case Ok(g) => ApplyAllSnoc(g, flags[1..], x);
    }
  }

  lemma LastInputFileIff(flags: seq<Flag>)
    ensures LastInputFile(flags).Some? <==> HasInputFile(flags)
  {
    if flags != [] {
      LastInputFileIff(Init(flags));
      if HasInputFile(flags) && !Last(flags).InputFile? {
        var i :| 0 <= i < |flags| && flags[i].InputFile?;
        assert Init(flags)[i].InputFile?;
      }
    }
  }

  lemma HonouredWithoutInput(flags: seq<Flag>)
    requires !HasInputFile(flags)
    ensures Honoured(flags) == flags
  {
    if flags != [] {
      assert forall i :: 0 <= i < |Init(flags)| ==> Init(flags)[i] == flags[i];
    }
  }

  /** Appending x adds an -i exactly when x is one. */
  lemma SnocHasInputFile(flags: seq<Flag>, x: Flag)
    ensures HasInputFile(flags + [x]) <==> HasInputFile(flags) || x.InputFile?
  {
    var s := flags + [x];
    if HasInputFile(s) && !x.InputFile? {
      var i :| 0 <= i < |s| && s[i].InputFile?;
      assert flags[i].InputFile?;
    }
    if HasInputFile(flags) {
      var i :| 0 <= i < |flags| && flags[i].InputFile?;
      assert s[i].InputFile?;
    }
    if x.InputFile? {
      assert s[|flags|] == x;
    }
  }

  /** Appending x selects SHA-1 exactly when flags already do or x names it. */
  lemma SnocSelectsSha1(flags: seq<Flag>, x: Flag)
    ensures SelectsSha1(flags + [x]) <==> SelectsSha1(flags) || (x.HashAlgo? && NamesSha1(x.name))
  {
    var s := flags + [x];
    if SelectsSha1(s) && !(x.HashAlgo? && NamesSha1(x.name)) {
      var i :| 0 <= i < |s| && s[i].HashAlgo? && NamesSha1(s[i].name);
      assert flags[i] == s[i];
    }
    if SelectsSha1(flags) {
      var i :| 0 <= i < |flags| && flags[i].HashAlgo? && NamesSha1(flags[i].name);
      assert s[i] == flags[i];
    }
    if x.HashAlgo? && NamesSha1(x.name) {
      assert s[|flags|] == x;
    }
  }

  /** Appending x rejects a length exactly when flags already do or x is a length of at most 0. */
  lemma SnocRejectsLength(flags: seq<Flag>, x: Flag)
    ensures RejectsLength(flags + [x]) <==>
      RejectsLength(flags) || ((x.MinLength? || x.MaxLength?) && x.length <= 0)
  {
    var s := flags + [x];
    if RejectsLength(s) && !((x.MinLength? || x.MaxLength?) && x.length <= 0) {
      var i :| 0 <= i < |s| && (s[i].MinLength? || s[i].MaxLength?) && s[i].length <= 0;
      assert flags[i] == s[i];
    }
    if RejectsLength(flags) {
      var i :| 0 <= i < |flags| && (flags[i].MinLength? || flags[i].MaxLength?) && flags[i].length <= 0;
      assert s[i] == flags[i];
    }
    if (x.MinLength? || x.MaxLength?) && x.length <= 0 {
      assert s[|flags|] == x;
    }
  }

  /**
    Appending one option: the list splits back into its parts, and the
    honoured prefix grows only while no -i has been seen.
  */
  lemma SnocFacts(flags: seq<Flag>, x: Flag)
    ensures Last(flags + [x]) == x && Init(flags + [x]) == flags
    ensures Honoured(flags + [x]) == if HasInputFile(flags) then Honoured(flags) else flags + [x]
    ensures !HasInputFile(flags) ==> Honoured(flags) == flags
  {
    var s := flags + [x];
    assert Init(s) == flags;
    SnocHasInputFile(flags, x);
    if !HasInputFile(flags) {
      HonouredWithoutInput(flags);
    }
  }

  /**
    The option loop from the defaults succeeds exactly when no honoured -a or
    -z is at most 0, and then produces the Expected state: -h selects SHA-1
    on "sha1"/"sha-1" only and nothing switches back; -i keeps its last
    argument; -a, -z and -c keep the last value given before the first -i.
  */
  lemma {:induction false} ApplyAllFromReset(flags: seq<Flag>)
    ensures ApplyAll(Reset(), flags).Ok? <==> !RejectsLength(Honoured(flags))
    ensures ApplyAll(Reset(), flags).Ok? ==> ApplyAll(Reset(), flags).value == Expected(flags)
    decreases |flags|
  {
    if flags == [] {
      assert !RejectsLength([]);
      assert !SelectsSha1([]);
    } else {
      var init, x := Init(flags), Last(flags);
      assert flags == init + [x];
      ApplyAllFromReset(init);
      ApplyAllSnoc(Reset(), init, x);
      SnocFacts(init, x);
      SnocHasInputFile(init, x);
      SnocSelectsSha1(init, x);
      SnocRejectsLength(init, x);
      LastInputFileIff(init);
      var r := ApplyAll(Reset(), init);
      if r.Ok? {
        StepMatchesExpected(init, x, r.value);
      }
    }
  }

  /** One step of the induction in ApplyAllFromReset. */
  lemma StepMatchesExpected(init: seq<Flag>, x: Flag, g: Finder)
    requires g == Expected(init)
    requires !RejectsLength(Honoured(init))
    requires LastInputFile(init).Some? <==> HasInputFile(init)
    ensures Apply(g, x).Ok? <==> !RejectsLength(Honoured(init + [x]))
    ensures Apply(g, x).Ok? ==> Apply(g, x).value == Expected(init + [x])
  {
    var flags := init + [x];
    SnocFacts(init, x);
    SnocHasInputFile(init, x);
    SnocSelectsSha1(init, x);
    SnocRejectsLength(init, x);
    if !HasInputFile(init) {
      assert Honoured(flags) == flags;
    }
  }

  /**
    parseCommandLineArguments succeeds exactly when no honoured length is at
    most 0, there is exactly one non-option argument and its length is the
    digest length of the selected algorithm. The result is the Expected
    state with the hash set and the minimum length clamped to the maximum.
  */
  lemma ParseCharacterisation(flags: seq<Flag>, operands: seq<string>)
    ensures Parse(flags, operands).Ok? <==>
      !RejectsLength(Honoured(flags)) && |operands| == 1 &&
      |operands[0]| == DigestLength(SelectedAlgorithm(flags))
    ensures Parse(flags, operands).Ok? ==>
      var e := Expected(flags);
      Parse(flags, operands).value ==
        e.(hashToFind := Some(operands[0]),
           minLength := if e.minLength > e.maxLength then e.maxLength else e.minLength)
    ensures RejectsLength(Honoured(flags)) ==>
      Parse(flags, operands) == Err(MinLengthNotPositive) ||
      Parse(flags, operands) == Err(MaxLengthNotPositive)
    ensures !RejectsLength(Honoured(flags)) && |operands| != 1 ==>
      Parse(flags, operands) == Err(Usage)
    ensures
      (!RejectsLength(Honoured(flags)) && |operands| == 1 &&
       |operands[0]| != DigestLength(SelectedAlgorithm(flags))) ==>
      Parse(flags, operands) == Err(HashLength(DigestLength(SelectedAlgorithm(flags))))
  {
    ApplyAllFromReset(flags);
  }
}

=== FILE: dictionary.dfy ===
/**
  readDictionary (HashFinder.cpp:126-147): the file is read with getline
  while the stream is good, so every '\n' ends an entry and the text after
  the last '\n' (possibly empty) is one more entry.
*/
module Dictionary {
  import opened Options
  import opened Config

  /** The number of newline characters in s. */
  function Newlines(s: string): nat {
    if s == [] then 0 else (if s[0] == '\n' then 1 else 0) + Newlines(s[1..])
  }

  /** The entries getline produces from the file's contents, in order. */
  function SplitLines(content: string): (lines: seq<string>)
    ensures |lines| == Newlines(content) + 1
    ensures forall i :: 0 <= i < |lines| ==> '\n' !in lines[i]
  {
    if content == [] then [[]]
    else
      assert content == [content[0]] + content[1..];
      var rest := SplitLines(content[1..]);
      if content[0] == '\n' then [[]] + rest
      else [[content[0]] + rest[0]] + rest[1..]
  }

  /** The entries written one per line, without a final newline. */
  function JoinLines(lines: seq<string>): string
    requires |lines| >= 1
  {
    if |lines| == 1 then lines[0] else lines[0] + "\n" + JoinLines(lines[1..])
  }

  /** Concatenation is associative. */
  lemma Assoc(a: string, b: string, d: string)
    ensures (a + b) + d == a + (b + d)
  {
  }

  /** Prefixing the first entry with c prefixes the joined text with c. */
  lemma JoinCons(c: char, lines: seq<string>)
    requires |lines| >= 1
    ensures JoinLines([[c] + lines[0]] + lines[1..]) == [c] + JoinLines(lines)
  {
    var x := lines[0];
    var head := [c] + x;
    var ext := [head] + lines[1..];
    if |lines| > 1 {
      var more := JoinLines(lines[1..]);
      assert JoinLines(ext) == head + "\n" + more by {
        assert ext[0] == head && ext[1..] == lines[1..];
      }
      Assoc(head, "\n", more);
      Assoc([c], x, "\n" + more);
      Assoc(x, "\n", more);
    }
  }

  /** Joining the entries with newlines gives back the file's contents. */
  lemma {:induction false} JoinSplit(content: string)
    ensures JoinLines(SplitLines(content)) == content
  {
    if content != [] {
      var c, tl := content[0], content[1..];
      assert content == [c] + tl;
      var rest := SplitLines(tl);
      JoinSplit(tl);
      if c == '\n' {
        var lines := [[]] + rest;
        assert lines[1..] == rest;
        assert JoinLines(lines) == [] + "\n" + JoinLines(rest);
      } else {
        JoinCons(c, rest);
      }
    }
  }

  /** A character other than newline joins the first entry of the text after it. */
  lemma SplitCons(c: char, s: string)
    requires c != '\n'
    ensures SplitLines([c] + s) == [[c] + SplitLines(s)[0]] + SplitLines(s)[1..]
  {
    assert ([c] + s)[1..] == s;
  }

  /** The entries of a text are its first entry followed by the others. */
  lemma SplitHead(s: string)
    ensures SplitLines([] + s) == [[] + SplitLines(s)[0]] + SplitLines(s)[1..]
  {
    var S := SplitLines(s);
    assert [] + s == s;
    assert [] + S[0] == S[0];
    assert S == [S[0]] + S[1..];
  }

  /** Reading a line without newline followed by more text extends the first entry of that text. */
  lemma {:induction false} SplitPrefix(line: string, s: string)
    requires '\n' !in line
    ensures SplitLines(line + s) == [line + SplitLines(s)[0]] + SplitLines(s)[1..]
  {
    var S := SplitLines(s);
    if line == [] {
      SplitHead(s);
    } else {
      var c, tl := line[0], line[1..];
      assert '\n' !in tl;
      SplitPrefix(tl, s);
      var R := SplitLines(tl + s);
      assert line == [c] + tl;
      Assoc([c], tl, s);
      SplitCons(c, tl + s);
      assert R[0] == tl + S[0] && R[1..] == S[1..];
      Assoc([c], tl, S[0]);
    }
  }

  /** A leading newline ends an empty first entry. */
  lemma NewlineThen(s: string)
    ensures SplitLines("\n" + s) == [[]] + SplitLines(s)
  {
    assert ("\n" + s)[1..] == s;
  }

  /** Lines without newlines, written one per line, read back as the same entries. */
  lemma {:induction false} SplitJoin(lines: seq<string>)
    requires |lines| >= 1
    requires forall i :: 0 <= i < |lines| ==> '\n' !in lines[i]
    ensures SplitLines(JoinLines(lines)) == lines
  {
    if |lines| == 1 {
      SplitPrefix(lines[0], []);
      assert lines[0] + [] == lines[0];
    } else {
      var tail := JoinLines(lines[1..]);
      SplitJoin(lines[1..]);
      NewlineThen(tail);
      Assoc(lines[0], "\n", tail);
      SplitPrefix(lines[0], "\n" + tail);
      var T := SplitLines("\n" + tail);
      assert T[0] == [] && T[1..] == lines[1..];
      assert lines[0] + T[0] == lines[0];
      assert lines == [lines[0]] + lines[1..];
    }
  }

  /**
    readDictionary. `file` is what opening `inputFileName` yields: its
    contents, or None when it cannot be opened. Without an input file
    nothing changes and the result is true; an unreadable file empties the
    dictionary and gives false; otherwise the dictionary becomes the file's
    lines, at least one.
  */
  function ReadDictionary(f: Finder, file: Option<string>): (r: (bool, Finder))
    ensures f.inputFileName.None? ==> r == (true, f)
    ensures f.inputFileName.Some? ==> r.0 == file.Some?
    ensures f.inputFileName.Some? && file.None? ==> r.1 == f.(dictionary := [])
    ensures f.inputFileName.Some? && file.Some? ==>
      && r.1 == f.(dictionary := r.1.dictionary)
      && |r.1.dictionary| == Newlines(file.value) + 1
      && JoinLines(r.1.dictionary) == file.value
      && forall i :: 0 <= i < |r.1.dictionary| ==> '\n' !in r.1.dictionary[i]
  {
    if f.inputFileName.None? then (true, f)
    else
      var cleared := f.(dictionary := []);
      match file
      case None => (false, cleared)
      case Some(content) =>
        JoinSplit(content);
        (true, cleared.(dictionary := SplitLines(content)))
  }
}

=== FILE: options.dfy ===
/** Optional values and error-carrying results shared by the other modules. */
module Options {

  /** A value that may be absent, as a C string field that may be NULL. */
  datatype Option<+T> = None | Some(value: T) {
    function GetOr(default: T): T {
      match this
      case Some(v) => v
      case None => default
    }
  }

  /** The outcome of an operation that can fail with an error of type E. */
  datatype Result<+T, +E> = Ok(value: T) | Err(error: E)
}

=== FILE: partition.dfy ===
/**
  How HashFinder::process splits a space of n candidates among k threads
  (HashFinder.cpp:209-215 for the dictionary, 261-267 for each word length).
*/
module Partition {
  import opened Arith

  /** The index bounds thread t computes: `start` and `stop` of the source. */
  datatype Share = Share(start: nat, stop: nat)

  /**
    Thread t of k starts at floor((t-1)n/k) and stops at floor(tn/k); the last
    thread adds the remainder n mod k to its stop.
  */
  function ShareOf(t: nat, k: nat, n: nat): (s: Share)
    requires 1 <= t <= k
    ensures s.start <= s.stop
    ensures t == 1 ==> s.start == 0
    ensures t < k ==> s.stop <= n
    ensures t == k ==> s.stop == n + n % k
  {
    ShareArith(t, k, n);
    var stop := (t * n) / k;
    Share((t - 1) * n / k, if t == k then stop + n % k else stop)
  }

  /** floor((t-1)n/k) <= floor(tn/k) <= n, with equality at t = k. */
  lemma ShareArith(t: nat, k: nat, n: nat)
    requires 1 <= t <= k
    ensures 0 <= (t - 1) * n / k <= t * n / k <= n
    ensures t == 1 ==> (t - 1) * n / k == 0
    ensures t == k ==> t * n / k == n
  {
    assert 0 <= (t - 1) * n;
    MulMonotone(t - 1, t, n);
    DivMonotone((t - 1) * n, t * n, k);
    MulMonotone(t, k, n);
    DivMonotone(t * n, k * n, k);
    DivModUnique(k * n, k, n, 0);
  }

  /** Each thread starts where the previous one stops. */
  lemma SharesAdjacent(t: nat, k: nat, n: nat)
    requires 1 <= t < k
    ensures ShareOf(t, k, n).stop == ShareOf(t + 1, k, n).start
  {
  }

  /** A later thread never starts before an earlier one stops. */
  lemma SharesOrdered(t1: nat, t2: nat, k: nat, n: nat)
    requires 1 <= t1 < t2 <= k
    ensures ShareOf(t1, k, n).stop <= ShareOf(t2, k, n).start
  {
    DivMonotone(t1 * n, (t2 - 1) * n, k);
  }

  /** The last thread stops exactly at n if and only if k divides n. */
  lemma LastStopExact(k: nat, n: nat)
    requires k >= 1
    ensures ShareOf(k, k, n).stop == n <==> n % k == 0
    ensures ShareOf(k, k, n).stop >= n
  {
  }

  /** Every index below the last stop lies in the half-open share of some thread at or before t. */
  lemma {:induction false} OwnerUpTo(t: nat, k: nat, n: nat, i: nat) returns (owner: nat)
    requires 1 <= t <= k && i < ShareOf(t, k, n).stop
    ensures 1 <= owner <= t
    ensures ShareOf(owner, k, n).start <= i < ShareOf(owner, k, n).stop
  {
    if ShareOf(t, k, n).start <= i {
      owner := t;
    } else {
      SharesAdjacent(t - 1, k, n);
      owner := OwnerUpTo(t - 1, k, n, i);
    }
  }

  /** Index i lies in the half-open share [start, stop) of thread t of k. */
  predicate InShare(t: nat, k: nat, n: nat, i: nat) {
    1 <= t <= k && ShareOf(t, k, n).start <= i < ShareOf(t, k, n).stop
  }

  /** Some thread's half-open share contains index i. */
  ghost predicate Covered(k: nat, n: nat, i: nat) {
    exists t :: 1 <= t <= k && InShare(t, k, n, i)
  }

  /** Index i is in some thread's share exactly when it lies below n + n mod k. */
  lemma CoveredBelow(k: nat, n: nat, i: nat)
    requires k >= 1
    ensures Covered(k, n, i) <==> i < n + n % k
  {
    if i < n + n % k {
      var owner := OwnerUpTo(k, k, n, i);
      assert InShare(owner, k, n, i);
    }
    if Covered(k, n, i) {
      var t :| 1 <= t <= k && InShare(t, k, n, i);
      if t < k {
        SharesOrdered(t, k, k, n);
      }
    }
  }

  /**
    The half-open shares [start, stop) of threads 1..k are pairwise disjoint
    and together cover exactly [0, n + n mod k): all of [0, n) plus an
    overshoot of n mod k indices in the last share.
  */
  lemma SharesPartition(k: nat, n: nat)
    requires k >= 1
    ensures forall i: nat :: Covered(k, n, i) <==> i < n + n % k
    ensures forall t1, t2, i: nat :: InShare(t1, k, n, i) && InShare(t2, k, n, i) ==> t1 == t2
  {
    forall i: nat
      ensures Covered(k, n, i) <==> i < n + n % k
    {
      CoveredBelow(k, n, i);
    }
    forall t1, t2, i: nat | InShare(t1, k, n, i) && InShare(t2, k, n, i)
      ensures t1 == t2
    {
      if t1 < t2 {
        SharesOrdered(t1, t2, k, n);
      } else if t2 < t1 {
        SharesOrdered(t2, t1, k, n);
      }
    }
  }
}

=== FILE: scenarios.dfy ===
/**
  The scenarios of HashFinderTest.cpp, stated over the model: parsing a
  command line, loading the three-word dictionary, and one-thread searches
  whose target has exactly one preimage under the digest function.
*/
module Scenarios {
  import opened Options
  import opened Arith
  import opened Config
  import opened Partition
  import opened Combination
  import opened Dictionary
  import opened Search

  const Alphabet: string := "fhlvz79"
  const Words: seq<string> := ["Dauerschlaf", "Radschaufel", "Schaufelrad"]

  /** The contents of exampleDictionary.txt as the tests write it: three lines, no final newline. */
  const DictionaryText: string := "Dauerschlaf\n" + "Radschaufel\n" + "Schaufelrad"

  /** The command lines of HashFinderTest.cpp:17-73. */
  lemma ParseExamples()
    ensures Parse([], []) == Err(Usage)
    ensures var r := Parse([InputFile("notExisting.txt")], ["35e5d160921d131d9114f1b4ee5f9d55"]);
      && r.Ok? && r.value.algorithm == Md5 && r.value.inputFileName == Some("notExisting.txt")
      && r.value.allowedCharacters == DefaultCharacters
      && r.value.hashToFind == Some("35e5d160921d131d9114f1b4ee5f9d55")
    ensures var r := Parse([InputFile("notExisting.txt"), HashAlgo("sha1")], ["586b64caacfbdfd67d2a8d323510ed5b72a61e0b"]);
      && r.Ok? && r.value.algorithm == Sha1 && r.value.inputFileName == Some("notExisting.txt")
      && r.value.allowedCharacters == DefaultCharacters
    ensures var r := Parse([HashAlgo("sha1"), Characters("sha1")], ["586b64caacfbdfd67d2a8d323510ed5b72a61e0b"]);
      && r.Ok? && r.value.algorithm == Sha1 && r.value.allowedCharacters == "sha1" && r.value.inputFileName == None
  {
  }

  /** The option loop sets the algorithm from the first option and then applies the rest. */
  lemma ApplyHashAlgoFirst(name: string, rest: seq<Flag>)
    requires name == "md5" || NamesSha1(name)
    ensures ApplyAll(Reset(), [HashAlgo(name)] + rest) == ApplyAll(Reset().(algorithm := SelectedAlgorithm([HashAlgo(name)])), rest)
  {
    assert ([HashAlgo(name)] + rest)[1..] == rest;
  }

  /** Before any -i, "-a 4 -z 4 -c chars" sets both lengths to 4 and the alphabet to chars. */
  lemma LengthsAndAlphabet(f: Finder, chars: string)
    requires f.inputFileName.None?
    ensures ApplyAll(f, [MinLength(4), MaxLength(4), Characters(chars)]) ==
      Ok(f.(minLength := 4, maxLength := 4, allowedCharacters := chars))
  {
    var flags := [MinLength(4), MaxLength(4), Characters(chars)];
    var f2 := f.(minLength := 4);
    var f3 := f2.(maxLength := 4);
    assert flags[1..] == [MaxLength(4), Characters(chars)] && flags[1..][1..] == [Characters(chars)];
    assert ApplyAll(f, flags) == ApplyAll(f2, flags[1..]);
    assert ApplyAll(f2, flags[1..]) == ApplyAll(f3, flags[1..][1..]);
  }

  /** The finder the combination test's command line produces. */
  lemma ParseCombinationTest(name: string, target: string)
    requires name == "md5" || NamesSha1(name)
    requires |target| == DigestLength(SelectedAlgorithm([HashAlgo(name)]))
    ensures Parse([HashAlgo(name), MinLength(4), MaxLength(4), Characters(Alphabet)], [target]) ==
      Ok(Finder(Some(target), SelectedAlgorithm([HashAlgo(name)]), Alphabet, 4, 4, None, [], None))
  {
    var rest := [MinLength(4), MaxLength(4), Characters(Alphabet)];
    assert [HashAlgo(name), MinLength(4), MaxLength(4), Characters(Alphabet)] == [HashAlgo(name)] + rest;
    ApplyHashAlgoFirst(name, rest);
    LengthsAndAlphabet(Reset().(algorithm := SelectedAlgorithm([HashAlgo(name)])), Alphabet);
  }

  /** The finder the dictionary tests' command line produces. */
  lemma ParseDictionaryTest(name: string, target: string)
    requires name == "md5" || NamesSha1(name)
    requires |target| == DigestLength(SelectedAlgorithm([HashAlgo(name)]))
    ensures Parse([InputFile("exampleDictionary.txt"), HashAlgo(name)], [target]) ==
      Ok(Finder(Some(target), SelectedAlgorithm([HashAlgo(name)]), DefaultCharacters, DefaultLength, DefaultLength,
                Some("exampleDictionary.txt"), [], None))
  {
    var f1 := Reset().(inputFileName := Some("exampleDictionary.txt"));
    var flags := [InputFile("exampleDictionary.txt"), HashAlgo(name)];
    assert flags[1..] == [HashAlgo(name)];
    assert ApplyAll(Reset(), flags) == ApplyAll(f1, [HashAlgo(name)]);
    assert ApplyAll(f1, [HashAlgo(name)]) == Ok(f1.(algorithm := SelectedAlgorithm([HashAlgo(name)])));
  }

  /** No word of the example dictionary contains a newline. */
  lemma WordsWithoutNewline()
    ensures forall i :: 0 <= i < |Words| ==> '\n' !in Words[i]
  {
    assert '\n' !in Words[0] && '\n' !in Words[1] && '\n' !in Words[2];
  }

  /** exampleDictionary.txt is the three words written one per line. */
  lemma WordsJoin()
    ensures JoinLines(Words) == DictionaryText
    ensures forall i :: 0 <= i < |Words| ==> '\n' !in Words[i]
  {
    WordsWithoutNewline();
    var a, b, c := "Dauerschlaf", "Radschaufel", "Schaufelrad";
    assert Words[1..] == [b, c] && [b, c][1..] == [c];
    assert JoinLines([b, c]) == b + "\n" + c;
    assert JoinLines(Words) == a + "\n" + (b + "\n" + c);
    assert "Dauerschlaf\n" == a + "\n" && "Radschaufel\n" == b + "\n";
    Assoc(a + "\n", b + "\n", c);
    Assoc(b, "\n", c);
    Assoc(a, "\n", (b + "\n") + c);
  }

  /** Reading exampleDictionary.txt yields its three words. */
  lemma ReadExampleDictionary(f: Finder)
    requires f.inputFileName.Some?
    ensures ReadDictionary(f, Some(DictionaryText)) == (true, f.(dictionary := Words))
  {
    var r := ReadDictionary(f, Some(DictionaryText));
    WordsJoin();
    SplitJoin(Words);
    SplitJoin(r.1.dictionary);
    assert r.1.dictionary == Words;
  }

  /** The numeral of 1835 over "fhlvz79", least significant digit first, is "hvl7". */
  lemma DecodeHvl7()
    ensures Decode(Alphabet, 4, 1835) == "hvl7"
  {
    assert Decode(Alphabet, 0, 5 / 7) == [];
    assert Decode(Alphabet, 1, 5) == "7";
    assert Decode(Alphabet, 2, 37) == "l7";
    assert Decode(Alphabet, 3, 262) == "vl7";
  }

  /** One thread over "fhlvz79" with length 4 visits exactly the indices 0..2401 of that length. */
  lemma SingleThreadWords(f: Finder)
    requires f.allowedCharacters == Alphabet && f.dictionary == [] && f.minLength == 4 && f.maxLength == 4
    ensures forall v :: Visits(f, 1, 1, v) <==> v.Generated? && v.length == 4 && v.index <= 2401
  {
    assert Pow(7, 4) == 2401;
    DivModUnique(2401, 1, 2401, 0);
    assert ShareOf(1, 1, 2401) == Share(0, 2401);
  }

  /** Below 7^4 the candidates are the numerals, and only index 1835 spells "hvl7". */
  lemma CandidateBelow2401(i: nat)
    requires i < 2401
    ensures Candidate(Alphabet, 4, i) == Some(Decode(Alphabet, 4, i))
    ensures Decode(Alphabet, 4, i) == "hvl7" <==> i == 1835
  {
    assert Pow(7, 4) == 2401;
    assert Distinct(Alphabet);
    CandidateInRange(Alphabet, 4, i);
    DecodeHvl7();
    EncodeDecode(Alphabet, 4, i);
    EncodeDecode(Alphabet, 4, 1835);
  }

  /** Index 7^4 builds a candidate ending in the terminator. */
  lemma CandidateAt2401()
    ensures Candidate(Alphabet, 4, 2401).Some?
    ensures Candidate(Alphabet, 4, 2401).value[3] == Terminator
  {
    assert Pow(7, 4) == 2401;
    assert Pow(7, 3) == 343;
    CandidatePastRange(Alphabet, 4, 2401);
  }

  /** Every length-4 candidate up to index 2401 exists; only index 1835 spells "hvl7". */
  lemma CandidatesUpTo2401(i: nat)
    requires i <= 2401
    ensures Candidate(Alphabet, 4, i).Some?
    ensures Candidate(Alphabet, 4, i).value == "hvl7" <==> i == 1835
  {
    if i < 2401 {
      CandidateBelow2401(i);
    } else {
      CandidateAt2401();
      assert "hvl7"[3] != Terminator;
    }
  }

  /**
    Over "fhlvz79" with length 4 a single thread visits the indices 0..2401:
    every candidate exists, and the only one equal to "hvl7" is index 1835.
  */
  lemma CombinationCandidates(f: Finder)
    requires f.allowedCharacters == Alphabet && f.dictionary == [] && f.minLength == 4 && f.maxLength == 4
    ensures Visits(f, 1, 1, Generated(4, 1835))
    ensures forall v :: Visits(f, 1, 1, v) ==>
      CandidateAt(f, v).Some? && (CandidateAt(f, v).value == "hvl7" <==> v == Generated(4, 1835))
  {
    SingleThreadWords(f);
    forall v | Visits(f, 1, 1, v)
      ensures CandidateAt(f, v).Some? && (CandidateAt(f, v).value == "hvl7" <==> v == Generated(4, 1835))
    {
      CandidatesUpTo2401(v.index);
    }
  }

  /** One thread over the three-word dictionary visits entries 0 and 1 only. */
  lemma DictionaryVisits(f: Finder)
    requires f.dictionary == Words
    ensures forall v :: Visits(f, 1, 1, v) <==> v == Entry(0) || v == Entry(1)
  {
    DivModUnique(3, 1, 3, 0);
    assert ShareOf(1, 1, 3) == Share(0, 3);
  }

  /**
    HashFinderTest.cpp:122-144 and 170-192: with "hvl7" the only preimage of
    the target, process(1, 1) finds it at index 1835 of the length-4 words.
  */
  method CombinationTest(name: string, target: string, hash: Hash) returns (f: Finder, r: Outcome)
    requires name == "md5" || NamesSha1(name)
    requires |target| == DigestLength(SelectedAlgorithm([HashAlgo(name)]))
    requires forall w :: hash(SelectedAlgorithm([HashAlgo(name)]), w) == target <==> w == "hvl7"
    ensures r == Found(Generated(4, 1835), "hvl7") && CollisionAfter(f, r) == Some("hvl7")
  {
    var flags := [HashAlgo(name), MinLength(4), MaxLength(4), Characters(Alphabet)];
    ParseCombinationTest(name, target);
    f := Parse(flags, [target]).value;
    CombinationCandidates(f);
    r := Process(f, 1, 1, hash);
  }

  /** The finder after parsing the dictionary tests' command line and reading exampleDictionary.txt. */
  lemma DictionaryTestFinder(name: string, target: string)
    requires name == "md5" || NamesSha1(name)
    requires |target| == DigestLength(SelectedAlgorithm([HashAlgo(name)]))
    ensures var p := Parse([InputFile("exampleDictionary.txt"), HashAlgo(name)], [target]);
      && p.Ok?
      && ReadDictionary(p.value, Some(DictionaryText)) ==
         (true, Finder(Some(target), SelectedAlgorithm([HashAlgo(name)]), DefaultCharacters, DefaultLength, DefaultLength,
                       Some("exampleDictionary.txt"), Words, None))
  {
    ParseDictionaryTest(name, target);
    ReadExampleDictionary(Parse([InputFile("exampleDictionary.txt"), HashAlgo(name)], [target]).value);
  }

  /** What process(1, 1) returns over the three-word dictionary, given its postcondition. */
  lemma DictionaryOutcome(f: Finder, hash: Hash, r: Outcome, word: string)
    requires f.hashToFind.Some? && f.collision.None? && f.dictionary == Words
    requires forall w :: Matches(f, hash, w) <==> w == word
    requires r.Found? ==> Visits(f, 1, 1, r.at) && CandidateAt(f, r.at) == Some(r.word) && Matches(f, hash, r.word)
    requires r.Crashed? ==> Visits(f, 1, 1, r.at) && CandidateAt(f, r.at).None?
    requires r.Unchanged? ==> forall v :: Visits(f, 1, 1, v) ==> Clear(f, hash, v)
    ensures word == Words[1] ==> r == Found(Entry(1), word)
    ensures word == Words[2] ==> r == Unchanged
  {
    DictionaryVisits(f);
    assert Words[0] != Words[1] && Words[0] != Words[2] && Words[1] != Words[2];
    if word == Words[1] {
      assert !Clear(f, hash, Entry(1));
    }
  }

  /**
    HashFinderTest.cpp:146-168 and 194-216: with "Radschaufel" the only
    preimage of the target, process(1, 1) over the loaded dictionary finds
    it as entry 1.
  */
  method DictionaryTest(name: string, target: string, hash: Hash) returns (loaded: bool, f: Finder, r: Outcome)
    requires name == "md5" || NamesSha1(name)
    requires |target| == DigestLength(SelectedAlgorithm([HashAlgo(name)]))
    requires forall w :: hash(SelectedAlgorithm([HashAlgo(name)]), w) == target <==> w == "Radschaufel"
    ensures loaded && r == Found(Entry(1), "Radschaufel") && CollisionAfter(f, r) == Some("Radschaufel")
  {
    DictionaryTestFinder(name, target);
    var p := Parse([InputFile("exampleDictionary.txt"), HashAlgo(name)], [target]);
    var read := ReadDictionary(p.value, Some(DictionaryText));
    loaded, f := read.0, read.1;
    r := Process(f, 1, 1, hash);
    DictionaryOutcome(f, hash, r, "Radschaufel");
  }

  /**
    The same dictionary searched for a target whose only preimage is the
    last word: one thread stops before the last entry, so process(1, 1)
    returns with `_collision` still unset.
  */
  method LastWordTest(name: string, target: string, hash: Hash) returns (f: Finder, r: Outcome)
    requires name == "md5" || NamesSha1(name)
    requires |target| == DigestLength(SelectedAlgorithm([HashAlgo(name)]))
    requires forall w :: hash(SelectedAlgorithm([HashAlgo(name)]), w) == target <==> w == "Schaufelrad"
    ensures r == Unchanged && CollisionAfter(f, r) == None
  {
    DictionaryTestFinder(name, target);
    var p := Parse([InputFile("exampleDictionary.txt"), HashAlgo(name)], [target]);
    f := ReadDictionary(p.value, Some(DictionaryText)).1;
    r := Process(f, 1, 1, hash);
    DictionaryOutcome(f, hash, r, "Schaufelrad");
  }
}

=== FILE: search.dfy ===
/**
  One call process(t, k) of HashFinder (HashFinder.cpp:190-307), run
  sequentially: thread t of k hashes the candidates of its share in order
  until one hashes to the target, `_collision` is already set, or the share
  is exhausted. The digest is a parameter `hash`, so nothing here depends
  on what MD5 or SHA-1 compute.
*/
module Search {
  import opened Options
  import opened Arith
  import opened Config
  import opened Partition
  import Combination

  /** A digest function: algorithm and message to lower-case hex digest. */
  type Hash = (Algorithm, string) -> string

  /** Where a candidate comes from: a dictionary entry, or (length, index) of the combination space. */
  datatype Visit = Entry(index: nat) | Generated(length: nat, index: nat)

  /** How a call of process ends. */
  datatype Outcome =
    | Unchanged                       // returns without touching _collision
    | Found(at: Visit, word: string)  // sets _collision := word and returns
    | Crashed(at: Visit)              // materialising the candidate at `at` throws or is undefined

  /** The value of `_collision` after the call, when it returns. */
  function CollisionAfter(f: Finder, r: Outcome): Option<string>
    requires !r.Crashed?
  {
    if r.Found? then Some(r.word) else f.collision
  }

  const UInt64Max: nat := 0xFFFF_FFFF_FFFF_FFFF

  /** `stop - 1` in uint64 arithmetic, the bound of the dictionary loop: 0 - 1 wraps around. */
  function DictionaryBound(stop: nat): (bound: nat)
    ensures stop <= UInt64Max ==> bound == (stop - 1) % (UInt64Max + 1)
    ensures stop >= 1 ==> bound < stop
  {
    if stop == 0 then UInt64Max else stop - 1
  }

  /**
    The visit order of process(t, k): with a non-empty dictionary the
    entries start <= i < stop - 1 of the thread's share; otherwise, for
    every length from minLength to maxLength, the indices start <= i <= stop
    of the thread's share of the n^length combinations.
  */
  predicate Visits(f: Finder, t: nat, k: nat, v: Visit)
    requires 1 <= t <= k
    ensures Visits(f, t, k, v) ==> (v.Entry? <==> |f.dictionary| > 0)
    ensures Visits(f, t, k, v) && v.Generated? ==>
      var size := Pow(|f.allowedCharacters|, v.length);
      f.minLength <= v.length <= f.maxLength && v.index <= size + size % k
    ensures Visits(f, t, k, v) && v.Entry? ==>
      var n := |f.dictionary|;
      v.index + 1 < n + n % k || ShareOf(t, k, n).stop == 0
  {
    if |f.dictionary| > 0 then
      var s := ShareOf(t, k, |f.dictionary|);
      v.Entry? && s.start <= v.index < DictionaryBound(s.stop)
    else
      v.Generated? && 1 <= v.length && f.minLength <= v.length <= f.maxLength &&
      var s := ShareOf(t, k, Pow(|f.allowedCharacters|, v.length));
      s.start <= v.index <= s.stop
  }

  /** Visit order within one call: increasing index, and shorter words before longer ones. */
  predicate Precedes(v: Visit, w: Visit) {
    match (v, w)
    case (Entry(i), Entry(j)) => i < j
    case (Generated(l, i), Generated(m, j)) => l < m || (l == m && i < j)
    case _ => false
  }

  /** The candidate at a visit; None when materialising it throws or is undefined. */
  function CandidateAt(f: Finder, v: Visit): Option<string> {
    match v
    case Entry(i) => if i < |f.dictionary| then Some(f.dictionary[i]) else None
    case Generated(len, i) => if len >= 1 then Combination.Candidate(f.allowedCharacters, len, i) else None
  }

  /** w hashes to the hash being searched for. */
  predicate Matches(f: Finder, hash: Hash, w: string)
    requires f.hashToFind.Some?
  {
    hash(f.algorithm, w) == f.hashToFind.value
  }

  /** The candidate at v exists and does not hash to the target. */
  predicate Clear(f: Finder, hash: Hash, v: Visit)
    requires f.hashToFind.Some?
  {
    CandidateAt(f, v).Some? && !Matches(f, hash, CandidateAt(f, v).value)
  }

  /** Every visit of process(t, k) before `at` has a candidate that does not match. */
  ghost predicate ClearBefore(f: Finder, t: nat, k: nat, hash: Hash, at: Visit)
    requires 1 <= t <= k && f.hashToFind.Some?
  {
    forall v :: Visits(f, t, k, v) && Precedes(v, at) ==> Clear(f, hash, v)
  }

  /** The dictionary loop (HashFinder.cpp:225-245): entries start, start + 1, ... while below `bound`. */
  method ScanDictionary(f: Finder, hash: Hash, start: nat, bound: nat) returns (r: Outcome)
    requires f.hashToFind.Some?
    requires start <= |f.dictionary|
    ensures f.collision.Some? ==> r == Unchanged
    ensures r.Found? ==>
      && f.collision.None? && r.at.Entry? && start <= r.at.index < bound
      && CandidateAt(f, r.at) == Some(r.word) && Matches(f, hash, r.word)
      && forall j :: start <= j < r.at.index ==> Clear(f, hash, Entry(j))
    ensures r.Crashed? ==>
      && f.collision.None? && r.at == Entry(|f.dictionary|) && |f.dictionary| < bound
      && forall j :: start <= j < |f.dictionary| ==> Clear(f, hash, Entry(j))
    ensures r.Unchanged? && f.collision.None? ==>
      forall j :: start <= j < bound ==> Clear(f, hash, Entry(j))
  {
    var i := start;
    while i < bound
      invariant start <= i <= |f.dictionary|
      invariant f.collision.None? ==> forall j :: start <= j < i ==> Clear(f, hash, Entry(j))
      decreases bound - i
    {
      if f.collision.Some? {
        return Unchanged;
      }
      if i >= |f.dictionary| {
        // _dictionary.at(i) throws std::out_of_range
        return Crashed(Entry(i));
      }
      var word := f.dictionary[i];
      if hash(f.algorithm, word) == f.hashToFind.value {
        return Found(Entry(i), word);
      }
      i := i + 1;
    }
    return Unchanged;
  }

  /** The combination loop for one length (HashFinder.cpp:277-303): indices start..stop inclusive. */
  method ScanLength(f: Finder, hash: Hash, len: nat, start: nat, stop: nat) returns (r: Outcome)
    requires f.hashToFind.Some? && len >= 1
    ensures f.collision.Some? ==> r == Unchanged
    ensures r.Found? ==>
      && f.collision.None? && r.at.Generated? && r.at.length == len && start <= r.at.index <= stop
      && CandidateAt(f, r.at) == Some(r.word) && Matches(f, hash, r.word)
      && forall j :: start <= j < r.at.index ==> Clear(f, hash, Generated(len, j))
    ensures r.Crashed? ==>
      && f.collision.None? && r.at.Generated? && r.at.length == len && start <= r.at.index <= stop
      && CandidateAt(f, r.at).None?
      && forall j :: start <= j < r.at.index ==> Clear(f, hash, Generated(len, j))
    ensures r.Unchanged? && f.collision.None? ==>
      forall j :: start <= j <= stop ==> Clear(f, hash, Generated(len, j))
  {
    var i := start;
    while i <= stop
      invariant start <= i
      invariant f.collision.None? ==> forall j :: start <= j < i ==> Clear(f, hash, Generated(len, j))
      decreases stop + 1 - i
    {
      if f.collision.Some? {
        return Unchanged;
      }
      var candidate := Combination.DecodeCandidate(f.allowedCharacters, len, i);
      if candidate.None? {
        return Crashed(Generated(len, i));
      }
      if hash(f.algorithm, candidate.value) == f.hashToFind.value {
        return Found(Generated(len, i), candidate.value);
      }
      i := i + 1;
    }
    return Unchanged;
  }

  /** The combination attack (HashFinder.cpp:251-306): every length from minLength to maxLength in turn. */
  method ScanCombinations(f: Finder, t: nat, k: nat, hash: Hash) returns (r: Outcome)
    requires 1 <= t <= k
    requires f.hashToFind.Some? && f.minLength >= 1 && |f.dictionary| == 0
    ensures f.collision.Some? ==> r == Unchanged
    ensures r.Found? ==>
      && f.collision.None? && Visits(f, t, k, r.at)
      && CandidateAt(f, r.at) == Some(r.word) && Matches(f, hash, r.word)
      && ClearBefore(f, t, k, hash, r.at)
    ensures r.Crashed? ==>
      && f.collision.None? && Visits(f, t, k, r.at)
      && CandidateAt(f, r.at).None?
      && ClearBefore(f, t, k, hash, r.at)
    ensures r.Unchanged? && f.collision.None? ==> forall v :: Visits(f, t, k, v) ==> Clear(f, hash, v)
  {
    var wlen := f.minLength;
    while wlen <= f.maxLength
      invariant f.minLength <= wlen
      invariant f.collision.None? ==>
        forall v :: Visits(f, t, k, v) && v.Generated? && v.length < wlen ==> Clear(f, hash, v)
      decreases f.maxLength - wlen
    {
      var share := ShareOf(t, k, Pow(|f.allowedCharacters|, wlen));
      r := ScanLength(f, hash, wlen, share.start, share.stop);
      if !r.Unchanged? {
        return;
      }
      wlen := wlen + 1;
    }
    r := Unchanged;
  }

  /** No thread's share of the dictionary starts past its end. */
  lemma ShareStartsWithin(t: nat, k: nat, n: nat)
    requires 1 <= t <= k
    ensures ShareOf(t, k, n).start <= n
  {
    if t > 1 {
      SharesAdjacent(t - 1, k, n);
    }
  }

  /** The dictionary attack of process(t, k), with its result stated over the visit order. */
  method SearchDictionary(f: Finder, t: nat, k: nat, hash: Hash) returns (r: Outcome)
    requires 1 <= t <= k
    requires f.hashToFind.Some? && |f.dictionary| > 0
    ensures f.collision.Some? ==> r == Unchanged
    ensures r.Found? ==>
      && f.collision.None? && Visits(f, t, k, r.at)
      && CandidateAt(f, r.at) == Some(r.word) && Matches(f, hash, r.word)
      && ClearBefore(f, t, k, hash, r.at)
    ensures r.Crashed? ==>
      && f.collision.None? && Visits(f, t, k, r.at)
      && CandidateAt(f, r.at).None?
      && ClearBefore(f, t, k, hash, r.at)
    ensures r.Unchanged? && f.collision.None? ==> forall v :: Visits(f, t, k, v) ==> Clear(f, hash, v)
  {
    var share := ShareOf(t, k, |f.dictionary|);
    ShareStartsWithin(t, k, |f.dictionary|);
    r := ScanDictionary(f, hash, share.start, DictionaryBound(share.stop));
    if r.Found? || r.Crashed? {
      forall v | Visits(f, t, k, v) && Precedes(v, r.at)
        ensures Clear(f, hash, v)
      {
        assert v.Entry? && share.start <= v.index;
      }
    }
  }

  /**
    process(t, k) as one sequential call. With `_collision` already set
    nothing is hashed and it is not overwritten. Otherwise the call stops
    at the first visit, in visit order, whose candidate matches (Found) or
    cannot be materialised (Crashed); if there is none, `_collision` is
    left as it was.
  */
  method Process(f: Finder, t: nat, k: nat, hash: Hash) returns (r: Outcome)
    requires 1 <= t <= k
    requires f.hashToFind.Some? && f.minLength >= 1
    ensures f.collision.Some? ==> r == Unchanged
    ensures r.Found? ==>
      && f.collision.None? && Visits(f, t, k, r.at)
      && CandidateAt(f, r.at) == Some(r.word) && Matches(f, hash, r.word)
      && ClearBefore(f, t, k, hash, r.at)
    ensures r.Crashed? ==>
      && f.collision.None? && Visits(f, t, k, r.at)
      && CandidateAt(f, r.at).None?
      && ClearBefore(f, t, k, hash, r.at)
    ensures r.Unchanged? && f.collision.None? ==> forall v :: Visits(f, t, k, v) ==> Clear(f, hash, v)
  {
    if |f.dictionary| > 0 {
      r := SearchDictionary(f, t, k, hash);
    } else {
      r := ScanCombinations(f, t, k, hash);
    }
  }

  /** With at least as many entries as threads, every share is non-empty at its end: stop >= 1. */
  lemma StopPositive(t: nat, k: nat, n: nat)
    requires 1 <= t <= k <= n
    ensures ShareOf(t, k, n).stop >= 1
  {
    DivMonotone(k, t * n, k);
    DivModUnique(k, k, 1, 0);
  }

  /**
    The dictionary loop runs while i < stop - 1, so when the dictionary has at
    least k entries, the entry stop - 1 at the end of each thread's share is in
    no thread's visit order.
  */
  lemma DictionarySkipsShareEnd(f: Finder, t: nat, u: nat, k: nat)
    requires 1 <= t <= k && 1 <= u <= k
    requires |f.dictionary| >= k
    ensures !Visits(f, u, k, Entry(ShareOf(t, k, |f.dictionary|).stop - 1))
  {
    var n := |f.dictionary|;
    var st, su := ShareOf(t, k, n), ShareOf(u, k, n);
    StopPositive(t, k, n);
    StopPositive(u, k, n);
    if u < t {
      SharesOrdered(u, t, k, n);
      assert su.stop <= st.stop;
    } else if t < u {
      SharesOrdered(t, u, k, n);
      assert st.stop <= su.start;
    }
    assert !(su.start <= st.stop - 1 < su.stop - 1);
  }

  /** floor(tn/k) is 0 exactly when tn < k. */
  lemma StopZeroIff(t: nat, k: nat, n: nat)
    requires 1 <= t < k
    ensures ShareOf(t, k, n).stop == 0 <==> t * n < k
  {
    if t * n < k {
      DivModUnique(t * n, k, 0, t * n);
    } else {
      DivMonotone(k, t * n, k);
      DivModUnique(k, k, 1, 0);
    }
  }

  /**
    The entry one past the end of the dictionary, where `_dictionary.at`
    throws, is in the visit order of thread t exactly when t is the last
    thread and the remainder it adds to its stop is at least 2, or when its
    stop is 0 and `stop - 1` wraps around. A thread that reaches it crashes;
    one that meets a match first never gets there.
  */
  lemma DictionaryOverrun(f: Finder, t: nat, k: nat)
    requires 1 <= t <= k
    requires 0 < |f.dictionary| < UInt64Max
    ensures var n := |f.dictionary|;
      Visits(f, t, k, Entry(n)) <==> (t == k && n % k >= 2) || (t < k && t * n < k)
    ensures CandidateAt(f, Entry(|f.dictionary|)).None?
  {
    var n := |f.dictionary|;
    var s := ShareOf(t, k, n);
    ShareStartsWithin(t, k, n);
    if t < k {
      StopZeroIff(t, k, n);
    }
  }

  /** A single thread's visit order is exactly the dictionary entries below n - 1: the last one is never in it. */
  lemma SingleThreadDictionary(f: Finder, j: nat)
    requires |f.dictionary| > 0
    ensures Visits(f, 1, 1, Entry(j)) <==> j < |f.dictionary| - 1
  {
    DivModUnique(|f.dictionary|, 1, |f.dictionary|, 0);
  }

  /** The combination loop includes stop, so the index where one thread stops is also where the next one starts. */
  lemma BoundaryVisitedTwice(f: Finder, t: nat, k: nat, len: nat)
    requires 1 <= t < k
    requires |f.dictionary| == 0 && 1 <= len && f.minLength <= len <= f.maxLength
    ensures var b := ShareOf(t, k, Pow(|f.allowedCharacters|, len)).stop;
      Visits(f, t, k, Generated(len, b)) && Visits(f, t + 1, k, Generated(len, b))
  {
    SharesAdjacent(t, k, Pow(|f.allowedCharacters|, len));
  }

  /** Every word of every searched length is visited by some thread. */
  lemma CombinationCoverage(f: Finder, k: nat, len: nat, i: nat) returns (t: nat)
    requires k >= 1
    requires |f.dictionary| == 0 && 1 <= len && f.minLength <= len <= f.maxLength
    requires i < Pow(|f.allowedCharacters|, len)
    ensures 1 <= t <= k && Visits(f, t, k, Generated(len, i))
  {
    var n := Pow(|f.allowedCharacters|, len);
    LastStopExact(k, n);
    t := OwnerUpTo(k, k, n, i);
  }

  /**
    Index n^len, one past the last word, is in the last thread's visit order:
    its most significant digit is n, so the candidate there ends with the
    alphabet's terminator.
  */
  lemma LastThreadVisitsTerminator(f: Finder, k: nat, len: nat)
    requires k >= 1
    requires |f.dictionary| == 0 && 1 <= len && f.minLength <= len <= f.maxLength
    requires |f.allowedCharacters| > 0
    ensures var v := Generated(len, Pow(|f.allowedCharacters|, len));
      && Visits(f, k, k, v)
      && CandidateAt(f, v).Some?
      && CandidateAt(f, v).value[len - 1] == Combination.Terminator
  {
    var n := |f.allowedCharacters|;
    var size := Pow(n, len);
    var s := ShareOf(k, k, size);
    ShareStartsWithin(k, k, size);
    assert s.start <= size <= s.stop;
    assert Pow(n, len - 1) > 0;
    Combination.CandidatePastRange(f.allowedCharacters, len, size);
  }

  /**
    If some word of a searched length hashes to the target, then it is in
    some thread's visit order and its visit is not Clear. What that thread's
    call then returns is stated by MatchEndsSearch.
  */
  lemma CombinationComplete(f: Finder, k: nat, hash: Hash, len: nat, i: nat) returns (t: nat)
    requires k >= 1 && f.hashToFind.Some?
    requires |f.dictionary| == 0 && 1 <= len && f.minLength <= len <= f.maxLength
    requires |f.allowedCharacters| > 0 && i < Pow(|f.allowedCharacters|, len)
    requires Matches(f, hash, Combination.Decode(f.allowedCharacters, len, i))
    ensures 1 <= t <= k && Visits(f, t, k, Generated(len, i))
    ensures !Clear(f, hash, Generated(len, i))
  {
    t := CombinationCoverage(f, k, len, i);
    Combination.CandidateInRange(f.allowedCharacters, len, i);
  }

  /**
    Consequence for process: a thread whose share holds a matching word
    (CombinationComplete shows one exists), started with `_collision` unset,
    ends with a match (this word or one it visits earlier) or at an earlier
    unbuildable candidate, never unchanged.
  */
  method MatchEndsSearch(f: Finder, t: nat, k: nat, hash: Hash, len: nat, i: nat) returns (r: Outcome)
    requires 1 <= t <= k && f.hashToFind.Some? && f.collision.None?
    requires |f.dictionary| == 0 && 1 <= f.minLength <= len <= f.maxLength
    requires |f.allowedCharacters| > 0 && i < Pow(|f.allowedCharacters|, len)
    requires Matches(f, hash, Combination.Decode(f.allowedCharacters, len, i))
    requires Visits(f, t, k, Generated(len, i))
    ensures r.Found? || r.Crashed?
    ensures r.Found? ==> Matches(f, hash, r.word) && CollisionAfter(f, r) == Some(r.word)
  {
    Combination.CandidateInRange(f.allowedCharacters, len, i);
    r := Process(f, t, k, hash);
  }
}
